=== FILE: README.md ===
# interactive_plotting core, modelled in Dafny

`interactive_plotting` draws interactive Bokeh plots of single-cell data.
This project models the parts of `src/interactive_plotting.py` that hold
logic of their own, and proves properties of that model:

- **Histogram** (`histogram.dfy`) covers two things.
  - The bin-count validation of `interactive_histograms`.
  - The JavaScript callback that rebins the raw samples whenever the bins
    slider moves. It sorts the samples in place, builds `n_bins` equal-width
    bins from the smallest to the largest sample, and counts each sample in
    the first bin whose right edge reaches it. It then divides every count by
    its bin's width and by the total, to get a density.
  - The sort and the nested counting loops are methods over an `array`,
    proved against the specification functions `Tally` and `Rebinned`. The
    inner counting loop is its own method, `CountSample`, where the `break`
    becomes a `return`. The
    lemmas prove three things about those functions: the bins partition the
    range, every sample is counted exactly once, and the density has area 1.
- **KernelExpr** (`kernel_expr.dfy`) covers `_eval` of `smooth_expression`.
  It folds a parsed kernel expression over the tables `kernel_params` and
  `kernel_default_params`, using the operator table and the kernel registry.
  - Looking up a name pops the `type` entry of the parameter set it uses, in
    place. The model therefore threads the tables through the evaluation.
  - Kernels are uninterpreted terms: a constructor name with its arguments.
  - It also models how the expression defaults to the only key of
    `kernel_params`.
- **KeyList** (`key_list.dfy`) covers the comma-list form of `de_values` and
  `cell_values` in `highlight_de`:
  - `split(',')`;
  - `str.strip` with Python's exact white-space set;
  - `dict.fromkeys` de-duplication;
  - the lone-empty-piece rule;
  - the key-membership assertion.
- **Wrappers** (`wrappers.dfy`) holds the `Option` and `Result` types. The
  model uses `Result` wherever the source raises an exception.

Where the code and its documentation disagree, the model follows the code:

- Unary operators always fail. The operator table at lines 271-273 has no
  unary entry, so `-k` raises `KeyError` at line 267, and so does `+k`.
- The `type` entry is popped from the caller's own dictionaries, not from a
  copy.
- An operator node looks its operator up before it evaluates its operands. An
  unsupported operator therefore fails before any name is looked up, and
  before anything is popped.

Sample values are modelled as reals, so edges, widths and sums are exact.

The callback never raises. Two inputs make it write meaningless numbers, and
the model returns an explicit error for each instead:

- **No samples.** `x[0]` is `undefined`, so every edge is `NaN`. The model
  returns `EmptySamples`.
- **All samples equal.** The width is 0, so every delta is 0 and the density
  is `NaN` or `Infinity`. The model returns `ZeroWidthBins`.

`Histogram.DegenerateRange` proves what happens to the counts in the second
case.

## Model

| member | source | states |
|---|---|---|
| Histogram.CheckBins | src/interactive_plotting.py:119-124 | accepts exactly when 1 <= min_bins <= bins <= max_bins; each of the three ValueErrors is raised exactly under its own condition, checked in source order |
| Histogram.SliderValuesAreValid | src/interactive_plotting.py:119-124 | once the bounds are accepted, every slider value in [min_bins, max_bins] is a positive, accepted bin count |
| Histogram.BinWidth | src/interactive_plotting.py:30 | `bin_size` is 0 exactly when the smallest and largest sample are equal, and positive when the largest exceeds the smallest |
| Histogram.BinIndex | src/interactive_plotting.py:38-42 | the chosen bin is the first whose right edge is >= the sample; every earlier right edge is below it; it is past the end exactly when no edge reaches the sample |
| Histogram.Bump | src/interactive_plotting.py:40 | `hist[j] += 1` adds one to counter j and leaves the length and every other counter unchanged; an index past the end changes nothing |
| Histogram.SumNat | src/interactive_plotting.py:47 | `hist.reduce((a, b) => a + b, 0)` is at least every single counter |
| Histogram.LeftEdges | src/interactive_plotting.py:33 | one left edge per bin; the first is the smallest sample and each next one lies one bin width further |
| Histogram.RightEdges | src/interactive_plotting.py:34 | one right edge per bin, each one bin width past its left edge, so every delta equals bin_size |
| Histogram.Tally | src/interactive_plotting.py:36-44 | the counting specification: one counter per bin, and the counters add up to at most the number of samples, since each sample is counted at most once |
| Histogram.Density | src/interactive_plotting.py:47-50 | one density height per counter; its values are characterised by DensityHeights and DensityIsNormalised |
| Histogram.Rebinned | src/interactive_plotting.py:24-54 | the callback as a function: no samples give EmptySamples; otherwise it succeeds exactly when the smallest and largest sample differ, else ZeroWidthBins; a success has n heights, n left and n right edges |
| Histogram.SortSamples | src/interactive_plotting.py:28 | sorts the sample array in place into ascending order, as a permutation of its old contents |
| Histogram.CountSamples | src/interactive_plotting.py:36-44 | the nested loops leave in the counters exactly `Tally` of the samples, the counting specification |
| Histogram.CountSample | src/interactive_plotting.py:37-42 | the inner loop with `break` increments exactly the counter of the first bin whose right edge reaches the sample, or none when there is none |
| Histogram.Rebin | src/interactive_plotting.py:24-54 | the whole callback: the samples end up sorted and permuted, and the result equals the specification `Rebinned` on the sorted samples |
| Histogram.LastRightEdge | src/interactive_plotting.py:30-34 | the last right edge is exactly the largest sample |
| Histogram.LastSampleCounted | src/interactive_plotting.py:37-47 | the largest sample is always counted, so `sum` is positive and the density's division by it is defined |
| Histogram.EdgesPartitionRange | src/interactive_plotting.py:30-34 | for sorted samples the n bins run from the smallest to the largest sample, each right edge is the next bin's left edge, all widths equal bin_size, and every sample lies within the range |
| Histogram.EdgesMeet | src/interactive_plotting.py:33-34 | the right edge of bin j is the left edge of bin j + 1 |
| Histogram.BinMembership | src/interactive_plotting.py:33-42 | with a positive width, a value in the range lands in a bin that contains it; only bin 0 is closed on the left, so a value on an inner edge goes to the lower bin |
| Histogram.TallyCountsBinMembers | src/interactive_plotting.py:36-44 | counter j equals the number of samples whose bin is j, so each sample is counted once, in its own bin |
| Histogram.TallySum | src/interactive_plotting.py:36-47 | when every sample reaches some right edge, `sum` equals the number of samples |
| Histogram.SortedSamplesAllCounted | src/interactive_plotting.py:28-47 | after the sort no sample is dropped by the counting loop: `sum` equals the number of samples |
| Histogram.MassOfDensity | src/interactive_plotting.py:47-50 | the area under the heights count / delta / t is (total count) / t |
| Histogram.DensityIsNonNegative | src/interactive_plotting.py:50 | with positive widths every density height is non-negative |
| Histogram.DensityIsNormalised | src/interactive_plotting.py:47-50 | with positive widths, normalising by `sum` gives non-negative heights whose area is exactly 1 ("just like in numpy") |
| Histogram.DensityHeights | src/interactive_plotting.py:48-50 | with equal widths w, the height of bin j is count_j / w / sum |
| Histogram.RebinnedIsDensityHistogram | src/interactive_plotting.py:24-54 | for sorted samples that are not all equal, the callback succeeds with n contiguous bins from min to max; the counts sum to the number of samples; each height is count / bin_size / count-total; the heights are non-negative with area 1 |
| Histogram.RebinnedEdges | src/interactive_plotting.py:30-34 | for sorted samples that are not all equal, the bins run contiguously from the smallest to the largest sample |
| Histogram.RebinnedDensity | src/interactive_plotting.py:36-50 | for sorted samples that are not all equal, the counts sum to the number of samples, and each height is count / bin_size / count-total, non-negative, with area 1 |
| Histogram.DegenerateRange | src/interactive_plotting.py:30-50 | when all samples are equal, every sample falls into bin 0 and the other counters stay 0; the density has zero widths to divide by, which the model reports as ZeroWidthBins |
| KernelExpr.ParamsFor | src/interactive_plotting.py:259 | `kernel_params.get(node.id, kernel_default_params)`: a name in kernel_params gets its own parameter set; otherwise the defaults |
| KernelExpr.KernelType | src/interactive_plotting.py:260 | `params.pop('type', 'rbf')` gives the `type` entry when there is one, and `'rbf'` otherwise |
| KernelExpr.Lookup | src/interactive_plotting.py:256-261 | looking up a name changes the tables only by popping `type` from parameter sets |
| KernelExpr.Eval | src/interactive_plotting.py:252-269 | the evaluator changes no parameter set outside the expression's names. On success every parameter set of a name in the expression has lost `type`, and so have the defaults when a missing name used them under suppress; otherwise the defaults are unchanged. A success implies only numbers, names, `+`, `*` and `**` occur, and mirrors the tree: numbers become scalars, names kernels, operator nodes applications. A success also means every name was in kernel_params, unless suppress is set. Each error is justified by the expression: an unknown name of it when not suppressed; an unregistered type selected by the parameter set of one of its names (known, or any name under suppress), a set which has then lost `type`; an operator of it outside the table; a unary operator of it; or another node kind of it |
| KernelExpr.ConsumedTransitive | src/interactive_plotting.py:259-264 | popping `type` in the left operand and then in the right one is still only popping `type` |
| KernelExpr.FailureCarries | src/interactive_plotting.py:259-264 | an error raised while evaluating an operand explains the failure of the whole operator node; a name whose set selects an unregistered type after earlier pops selected it before them, and after its own pop the set is the original one without `type` |
| KernelExpr.SelectionCarries | src/interactive_plotting.py:259-261 | a parameter set that still selects an unregistered type has not had its `type` popped: it is the original set |
| KernelExpr.PopsCompose | src/interactive_plotting.py:263-264 | popping `type` for the left operand's names and then for the right operand's names pops it once for every name of either, and leaves every other parameter set alone |
| KernelExpr.ConsumedKeepsTypesKnown | src/interactive_plotting.py:260-261 | popping `type` entries keeps every remaining type registered |
| KernelExpr.EvalSucceedsIff | src/interactive_plotting.py:252-281 | on numbers, names and `+`, `*`, `**` with registered types, evaluation succeeds exactly when every name is in kernel_params or suppress is set; otherwise it fails with the unknown-name ValueError |
| KernelExpr.NameLookup | src/interactive_plotting.py:256-281 | a resolvable name builds the kernel its `type` selects (RBF without one) from the remaining entries; the parameter set it used loses `type`; nothing else changes |
| KernelExpr.SecondLookupBuildsRbf | src/interactive_plotting.py:259-261 | looking the same name up a second time sees no `type`: it builds an RBF kernel from the same entries and changes nothing |
| KernelExpr.RepeatedNameLosesType | src/interactive_plotting.py:259-264 | `k + k` with k of type `mat` and `length_scale` 0.5 evaluates to Matern(length_scale=0.5) + RBF(length_scale=0.5) |
| KernelExpr.SnapshotLookup | src/interactive_plotting.py:256-261 | the copy-semantics name lookup succeeds exactly when the name is known (or suppressed) and its type is registered; it then builds the kernel that type selects from the other entries; an unknown name without suppress is the ValueError |
| KernelExpr.ExpressionText | src/interactive_plotting.py:302-304 | without an expression, the only key of kernel_params is used; the AssertionError is raised exactly when there is not exactly one key |
| KernelExpr.Snapshot | src/interactive_plotting.py:252-269 | the copy-semantics evaluator: a success means only supported nodes occur and the value is what the expression denotes, each name building the kernel its own parameter set selects; every name was in kernel_params unless suppress is set; each error is justified by the expression as in Eval, a type error naming an unregistered type that the parameter set of one of its names selects |
| KernelExpr.SnapshotFrame | src/interactive_plotting.py:252-269 | the copy-semantics result depends only on the parameter sets of the names in the expression and on the defaults |
| KernelExpr.EvalMatchesSnapshot | src/interactive_plotting.py:252-269 | when no name occurs twice and every name is in kernel_params (or suppress is off), the in-place evaluator gives exactly the copy-semantics result: every name builds the kernel its own `type` selects |
| KernelExpr.SnapshotRepeatedOperand | src/interactive_plotting.py:263-264 | with copies, a repeated operand evaluates to the same value on both sides |
| KernelExpr.RepeatedNameKeepsType | src/interactive_plotting.py:259-264 | with copies, `k + k` with k of type `mat` and `length_scale` 0.5 evaluates to Matern + Matern, both with length_scale 0.5 |
| KeyList.Split | src/interactive_plotting.py:627-634 | `split(',')` yields at least one piece, and no piece holds a comma |
| KeyList.JoinSplit | src/interactive_plotting.py:627-634 | joining the pieces with ',' gives back the text |
| KeyList.SplitPrefix | src/interactive_plotting.py:627-634 | a comma-free prefix extends the first piece and leaves the others alone |
| KeyList.SplitJoin | src/interactive_plotting.py:627-634 | splitting comma-free pieces joined with ',' gives back the pieces |
| KeyList.IsSpace | src/interactive_plotting.py:627 | the characters `str.strip()` removes are those for which `str.isspace()` holds; a comma is never one of them, and space, tab, newline and carriage return always are |
| KeyList.StripLeft | src/interactive_plotting.py:627-634 | removes a prefix made only of white space, and what remains does not start with white space |
| KeyList.StripRight | src/interactive_plotting.py:627-634 | removes a suffix made only of white space, and what remains does not end with white space |
| KeyList.Strip | src/interactive_plotting.py:627-634 | `str.strip` keeps no more than the piece, and what it keeps neither starts nor ends with white space |
| KeyList.StripIsInfix | src/interactive_plotting.py:627-634 | `str.strip` keeps one contiguous stretch of the piece |
| KeyList.StripRemovesOnlySpace | src/interactive_plotting.py:627-634 | everything `str.strip` removes, before and after what it keeps, is white space |
| KeyList.StripEmptyIff | src/interactive_plotting.py:627-634 | a piece strips to "" exactly when it is all white space |
| KeyList.StripKeepsCommaFree | src/interactive_plotting.py:627-634 | stripping a comma-free piece leaves it comma-free |
| KeyList.FirstIndex | src/interactive_plotting.py:627-634 | the position of an element's first occurrence |
| KeyList.Dedup | src/interactive_plotting.py:627-634 | `list(dict.fromkeys(...))` keeps exactly the same elements, and each only once |
| KeyList.DedupKeepsFirstOccurrenceOrder | src/interactive_plotting.py:627-634 | the de-duplicated list is in the order of first occurrences |
| KeyList.Pieces | src/interactive_plotting.py:627 | `map(str.strip, x.split(','))` gives one stripped piece per comma-separated part |
| KeyList.Tokens | src/interactive_plotting.py:627 | `list(dict.fromkeys(...))` of the stripped pieces holds each piece exactly once and nothing else |
| KeyList.PiecesAreClean | src/interactive_plotting.py:627-634 | every stripped piece is comma-free and neither starts nor ends with white space |
| KeyList.DedupBlankIff | src/interactive_plotting.py:627-635 | de-duplication yields `['']` exactly when every element is empty |
| KeyList.TokensBlankIff | src/interactive_plotting.py:627-635 | the tokens are `['']` exactly when every stripped piece is empty |
| KeyList.ParseKeyListSound | src/interactive_plotting.py:626-638 | a parsed list holds distinct known keys, each a stripped, comma-free piece of the text. A non-empty result holds every piece. The assertion fails exactly when some piece is non-empty and some piece is not a key |
| KeyList.PiecesBlankIff | src/interactive_plotting.py:627-635 | every piece strips to "" exactly when the text holds only commas and white space |
| KeyList.ParseKeyListEmptyIff | src/interactive_plotting.py:626-638 | the list comes out empty exactly when the text holds only commas and white space |
| KeyList.ParseKeyList | src/interactive_plotting.py:626-638 | a parsed list holds distinct keys that are all known; a non-empty one is exactly the stripped, de-duplicated pieces; the assertion fails only when the pieces are not `['']` and one of them is not a key |
| KeyList.ResolveKeyList | src/interactive_plotting.py:626-633 | a value that is not a string is used unchanged; a string parses to distinct known keys, or fails because some piece is not a key |
| KeyList.SplitBlank | src/interactive_plotting.py:627-634 | the text holds only commas and white space exactly when every piece between commas is white space |

## Left out

- Bokeh is not modelled: figures, widgets, data sources, `source.change.emit()` and notebook output. The callback returns the data it would write into `source.data`.
- Floating point is not modelled: samples, edges and heights are exact reals. Rounding in `bin_size * i` is not captured, and neither is the sample that rounding could push past the last right edge.
- `Histogram.Rebin`: an empty sample array or all-equal samples give explicit errors. The JavaScript writes `NaN` or `Infinity` values instead.
- `Histogram.SortSamples` proves an insertion sort. JavaScript's `Array.prototype.sort` may use another algorithm. Only the outcome (sorted, a permutation) is claimed.
- `np.histogram`, the initial plot data and the AnnData key checks of `interactive_histograms` are not part of this model.
- `ast.parse` is not modelled: the parsed tree is the input of `KernelExpr.Eval`, and unmodelled node kinds are `Other`.
- The scikit-learn kernel classes are opaque. A kernel is its constructor name and arguments, and `+`, `*` and `**` build terms. Constructor argument validation (a `TypeError` on an unexpected keyword) and kernel algebra are not modelled.
- `KernelExpr.Eval` keeps `kernel_params` entries and the defaults as separate tables. Aliasing between them, where one dictionary is both an entry and the default set, is not modelled.
- `KernelExpr.Eval`: applying an operator is modelled as building the term `Applied(op, left, right)`. In the program the application can itself fail (`2 ** k` raises `TypeError`, since the kernels define no `__rpow__`) or compute a plain number (`2 * 3` gives 6); neither is captured.
- `KernelExpr.Eval` gives every name its own parameter set. One dictionary bound to two names, as in `kernel_params={'a': d, 'b': d}`, is not modelled: there `a + b` loses `type` on `b` as well.
- The persistence of the shared mutable default `kernel_params=dict()` across calls is not modelled beyond the tables that `Eval` returns.
- Kernel types that are not strings are `Param.Number`. An unhashable type, which would raise `TypeError` instead of `KeyError`, is not distinguished.
- The KRR and GP fitting, prediction and plotting of `smooth_expression` are not modelled.
- `KeyList.ResolveKeyList` models the `isinstance(..., str)` test by the shape of its argument. AnnData's key sets are given as a set of strings.
- The insertion of the `groupby` key into `cell_values` after the parsing is not part of this model.
- Python `assert` statements are modelled as always enabled. Under `python -O` the key check would not run.
- Strings are sequences of code points. `str.strip` uses exactly the characters for which `str.isspace()` holds.

## Findings

| source | as written | input that shows it | evidently intended | confidence | as-written member | corrected member |
|---|---|---|---|---|---|---|
| src/interactive_plotting.py:259-261 | the `type` entry is popped from the caller's parameter set in place, so the second occurrence of a name sees no `type` and falls back to RBF | `kernel_expr='k + k'`, `kernel_params={'k': {'type': 'mat', 'length_scale': 0.5}}` gives Matern(length_scale=0.5) + RBF(length_scale=0.5) | every occurrence of a name builds the kernel its configured type selects, without changing the caller's dictionaries | medium, not executed | KernelExpr.RepeatedNameLosesType | KernelExpr.Snapshot |

=== FILE: histogram.dfy ===
/**
 * The interactive histogram: the bin-count validation done before the widget is
 * built, and the client-side callback that rebins the raw samples whenever the
 * slider moves (sort, equal-width edges, first-fitting-bin counting, density).
 * Sample values are reals, so edges and sums are exact.
 */
module Histogram {
  import opened Wrappers

  // ---------------------------------------------------------------------------
  // Bin-count validation
  // ---------------------------------------------------------------------------

  /** The three ValueErrors of the bin bounds check, in the order they are checked. */
  datatype BinsError =
    | MinBinsBelowOne(minBins: int)
    | MaxBinsBelowMin(minBins: int, maxBins: int)
    | BinsOutOfRange(minBins: int, bins: int, maxBins: int)

  /** Validates the initial bin count and the slider range. */
  function CheckBins(bins: int, minBins: int, maxBins: int): (r: Result<(), BinsError>)
    ensures r.Success? <==> 1 <= minBins <= bins <= maxBins
    ensures r == Failure(MinBinsBelowOne(minBins)) <==> minBins < 1
    ensures r == Failure(MaxBinsBelowMin(minBins, maxBins)) <==> 1 <= minBins && maxBins < minBins
    ensures r == Failure(BinsOutOfRange(minBins, bins, maxBins))
            <==> 1 <= minBins <= maxBins && !(minBins <= bins <= maxBins)
  {
    if minBins < 1 then
      Failure(MinBinsBelowOne(minBins))
    else if maxBins < minBins then
      Failure(MaxBinsBelowMin(minBins, maxBins))
    else if !(bins >= minBins && bins <= maxBins) then
      Failure(BinsOutOfRange(minBins, bins, maxBins))
    else
      Success(())
  }

  /** Once the bounds are accepted, every value the slider can take is itself an
      accepted, positive bin count. */
  lemma SliderValuesAreValid(bins: int, minBins: int, maxBins: int, v: int)
    requires CheckBins(bins, minBins, maxBins).Success?
    requires minBins <= v <= maxBins
    ensures v >= 1 && CheckBins(v, minBins, maxBins).Success?
  {
  }

  // ---------------------------------------------------------------------------
  // Specification of the rebinning callback
  // ---------------------------------------------------------------------------

  ghost predicate Sorted(s: seq<real>) {
    forall p, q :: 0 <= p < q < |s| ==> s[p] <= s[q]
  }

  /** `bin_size`: the common width of the bins between the smallest and largest
      sample. It is 0 exactly when the two are equal, and positive when the
      largest exceeds the smallest. */
  function BinWidth(lo: real, hi: real, n: nat): (w: real)
    requires n >= 1
    ensures w == 0.0 <==> lo == hi
    ensures lo < hi ==> w > 0.0
  {
    var w := (hi - lo) / (n as real);
    assert w * (n as real) == hi - lo;
    w
  }

  /** `l_edges`: bin j starts at lo + width * j, so the first bin starts at lo
      and consecutive left edges are one width apart. */
  function LeftEdges(lo: real, w: real, n: nat): (l: seq<real>)
    ensures |l| == n && (n > 0 ==> l[0] == lo)
    ensures forall j :: 0 <= j < n - 1 ==> l[j + 1] == l[j] + w
  {
    var l := seq(n, j => lo + w * (j as real));
    forall j | 0 <= j < n - 1
      ensures l[j + 1] == l[j] + w
    {
      assert w * ((j + 1) as real) == w * (j as real) + w;
    }
    l
  }

  /** `r_edges`: bin j ends at lo + width * (j + 1), one width after it starts. */
  function RightEdges(lo: real, w: real, n: nat): (r: seq<real>)
    ensures |r| == n
    ensures forall j :: 0 <= j < n ==> r[j] == LeftEdges(lo, w, n)[j] + w
  {
    var r := seq(n, j => lo + w * ((j + 1) as real));
    var l := LeftEdges(lo, w, n);
    forall j | 0 <= j < n
      ensures r[j] == l[j] + w
    {
      assert w * ((j + 1) as real) == w * (j as real) + w;
    }
    r
  }

  /** The bin a sample is counted in: the first j with v <= r[j], or |r| when
      no right edge reaches v (then the inner loop ends without counting it). */
  function BinIndex(v: real, r: seq<real>): (k: nat)
    ensures k <= |r|
    ensures forall j :: 0 <= j < k ==> r[j] < v
    ensures k < |r| ==> v <= r[k]
  {
    if |r| == 0 then 0
    else if v <= r[0] then 0
    else 1 + BinIndex(v, r[1..])
  }

  /** `hist[j] += 1`: adds one to counter k, if there is such a counter, and
      leaves the others alone. */
  function Bump(c: seq<nat>, k: nat): (b: seq<nat>)
    ensures |b| == |c|
    ensures k < |c| ==> b[k] == c[k] + 1
    ensures forall j :: 0 <= j < |c| && j != k ==> b[j] == c[j]
  {
    if k < |c| then c[k := c[k] + 1] else c
  }

  /** `hist.reduce((a, b) => a + b, 0)`: the total of the counters, which is
      at least every single counter. */
  function {:induction false} SumNat(c: seq<nat>): (total: nat)
    ensures forall j :: 0 <= j < |c| ==> c[j] <= total
  {
    if |c| == 0 then 0
    else
      var init := c[..|c| - 1];
      assert forall j :: 0 <= j < |init| ==> init[j] == c[j];
      SumNat(init) + c[|c| - 1]
  }


  /** The counters after the outer loop has run over all of s, in order: one
      counter per bin, and no sample counted more than once. */
  function {:induction false} Tally(s: seq<real>, r: seq<real>): (c: seq<nat>)
    ensures |c| == |r|
    ensures SumNat(c) <= |s|
    decreases |s|
  {
    if |s| == 0 then
      SumZeros(|r|);
      seq(|r|, _ => 0)
    else
      var c := Tally(s[..|s| - 1], r);
      var k := BinIndex(s[|s| - 1], r);
      if k < |c| then SumBump(c, k); Bump(c, k) else Bump(c, k)
  }

  /** `hist.map((c, i) => c / deltas[i] / sum)` with `deltas[i] = r[i] - l[i]`. */
  function Density(c: seq<nat>, l: seq<real>, r: seq<real>, total: nat): (h: seq<real>)
    requires |l| == |c| && |r| == |c|
    requires forall j :: 0 <= j < |c| ==> r[j] - l[j] != 0.0
    requires total != 0
    ensures |h| == |c|
  {
    seq(|c|, j requires 0 <= j < |c| => (c[j] as real) / (r[j] - l[j]) / (total as real))
  }

  /** The area under the histogram: the sum of height times width over the bins. */
  function Mass(h: seq<real>, l: seq<real>, r: seq<real>): real
    requires |l| == |h| && |r| == |h|
  {
    if |h| == 0 then 0.0
    else Mass(h[..|h| - 1], l[..|h| - 1], r[..|h| - 1]) + h[|h| - 1] * (r[|h| - 1] - l[|h| - 1])
  }

  /** What the callback writes into the plotted data source. */
  datatype Hist = Hist(hist: seq<real>, lEdges: seq<real>, rEdges: seq<real>)

  datatype RebinError =
    | EmptySamples   // no samples: the range is undefined
    | ZeroWidthBins  // all samples equal: every delta is 0 and the density divides by it

  /** The callback's result on the sample sequence s as it stands after sorting:
      lo is s[0] and hi is the last sample. */
  function Rebinned(s: seq<real>, n: nat): (res: Result<Hist, RebinError>)
    requires n >= 1
    ensures |s| == 0 ==> res == Failure(EmptySamples)
    ensures |s| > 0 ==> (res.Success? <==> s[0] != s[|s| - 1])
    ensures |s| > 0 && res.Failure? ==> res == Failure(ZeroWidthBins)
    ensures res.Success? ==> |res.value.hist| == n && |res.value.lEdges| == n && |res.value.rEdges| == n
  {
    if |s| == 0 then Failure(EmptySamples)
    else
      var w := BinWidth(s[0], s[|s| - 1], n);
      var l := LeftEdges(s[0], w, n);
      var r := RightEdges(s[0], w, n);
      var c := Tally(s, r);
      if w == 0.0 then Failure(ZeroWidthBins)
      else
        LastSampleCounted(s, n);
        Success(Hist(Density(c, l, r, SumNat(c)), l, r))
  }

  // ---------------------------------------------------------------------------
  // Helper facts
  // ---------------------------------------------------------------------------

  lemma LastRightEdge(lo: real, hi: real, n: nat)
    requires n >= 1
    ensures RightEdges(lo, BinWidth(lo, hi, n), n)[n - 1] == hi
  {
    var w := BinWidth(lo, hi, n);
    var d := n as real;
    assert RightEdges(lo, w, n)[n - 1] == lo + w * d;
    assert w == (hi - lo) / d;
    assert w * d == hi - lo;
  }

  lemma {:induction false} SumBump(c: seq<nat>, k: nat)
    requires k < |c|
    ensures SumNat(Bump(c, k)) == SumNat(c) + 1
  {
    var c' := Bump(c, k);
    if k == |c| - 1 {
      assert c'[..|c'| - 1] == c[..|c| - 1];
    } else {
      assert c'[..|c'| - 1] == Bump(c[..|c| - 1], k);
      SumBump(c[..|c| - 1], k);
    }
  }

  lemma {:induction false} SumZeros(n: nat)
    ensures SumNat(seq(n, _ => 0)) == 0
  {
    if n > 0 {
      assert seq(n, _ => 0)[..n - 1] == seq(n - 1, _ => 0);
      SumZeros(n - 1);
    }
  }

  /** The largest sample meets the last right edge, so it is always counted and
      the total the density divides by is positive. */
  lemma LastSampleCounted(s: seq<real>, n: nat)
    requires |s| >= 1 && n >= 1
    ensures SumNat(Tally(s, RightEdges(s[0], BinWidth(s[0], s[|s| - 1], n), n))) >= 1
  {
    var r := RightEdges(s[0], BinWidth(s[0], s[|s| - 1], n), n);
    LastRightEdge(s[0], s[|s| - 1], n);
    assert BinIndex(s[|s| - 1], r) < n;
    SumBump(Tally(s[..|s| - 1], r), BinIndex(s[|s| - 1], r));
  }

  // ---------------------------------------------------------------------------
  // Properties of the edges
  // ---------------------------------------------------------------------------

  /** The bins partition [min, max] into n contiguous pieces of equal width. */
  lemma EdgesPartitionRange(s: seq<real>, n: nat)
    requires |s| >= 1 && n >= 1 && Sorted(s)
    ensures var w := BinWidth(s[0], s[|s| - 1], n);
            var l := LeftEdges(s[0], w, n);
            var r := RightEdges(s[0], w, n);
            && |l| == n && |r| == n
            && (forall i :: 0 <= i < |s| ==> l[0] <= s[i] <= r[n - 1])
            && l[0] == s[0] && r[n - 1] == s[|s| - 1]
            && (forall j :: 0 <= j < n - 1 ==> r[j] == l[j + 1])
            && (forall j :: 0 <= j < n ==> r[j] - l[j] == w)
  {
    var w := BinWidth(s[0], s[|s| - 1], n);
    LastRightEdge(s[0], s[|s| - 1], n);
    assert forall i :: 0 <= i < |s| ==> s[0] <= s[i] <= s[|s| - 1];
  }

  /** With a positive width, a value in [lo, lo + n * w] lands in the bin that
      contains it: bins are closed on the right, and only bin 0 is also closed
      on the left, so a value on an internal edge goes to the lower bin. */
  lemma BinMembership(lo: real, w: real, n: nat, v: real)
    requires w > 0.0 && n >= 1
    requires lo <= v <= lo + w * (n as real)
    ensures var l := LeftEdges(lo, w, n);
            var r := RightEdges(lo, w, n);
            var k := BinIndex(v, r);
            && k < n
            && l[k] <= v <= r[k]
            && (k > 0 ==> l[k] < v)
  {
    var l := LeftEdges(lo, w, n);
    var r := RightEdges(lo, w, n);
    LastRightEdge(lo, lo + w * (n as real), n);
    assert BinWidth(lo, lo + w * (n as real), n) == w;
    var k := BinIndex(v, r);
    if k > 0 {
      EdgesMeet(lo, w, n, k - 1);
    }
  }

  /** The right edge of bin j is the left edge of bin j + 1. */
  lemma EdgesMeet(lo: real, w: real, n: nat, j: nat)
    requires j + 1 < n
    ensures RightEdges(lo, w, n)[j] == LeftEdges(lo, w, n)[j + 1]
  {
  }

  // ---------------------------------------------------------------------------
  // Properties of the counting
  // ---------------------------------------------------------------------------

  /** The bin chosen for every sample, in sample order. */
  function BinIndices(s: seq<real>, r: seq<real>): seq<nat> {
    seq(|s|, i requires 0 <= i < |s| => BinIndex(s[i], r))
  }

  /** Each sample increments exactly one counter, the one of its bin: counter j
      holds the number of samples whose bin is j. */
  lemma {:induction false} TallyCountsBinMembers(s: seq<real>, r: seq<real>, j: nat)
    requires j < |r|
    ensures Tally(s, r)[j] == multiset(BinIndices(s, r))[j]
  {
    if |s| > 0 {
      var init := s[..|s| - 1];
      assert BinIndices(s, r) == BinIndices(init, r) + [BinIndex(s[|s| - 1], r)];
      TallyCountsBinMembers(init, r, j);
    }
  }

  /** When every sample reaches some right edge, the counters add up to the
      number of samples. */
  lemma {:induction false} TallySum(s: seq<real>, r: seq<real>)
    requires forall i :: 0 <= i < |s| ==> BinIndex(s[i], r) < |r|
    ensures SumNat(Tally(s, r)) == |s|
  {
    if |s| == 0 {
      SumZeros(|r|);
    } else {
      var init := s[..|s| - 1];
      assert forall i :: 0 <= i < |init| ==> init[i] == s[i];
      TallySum(init, r);
      SumBump(Tally(init, r), BinIndex(s[|s| - 1], r));
    }
  }

  /** For sorted samples no sample is dropped: the counters sum to |s|. */
  lemma SortedSamplesAllCounted(s: seq<real>, n: nat)
    requires |s| >= 1 && n >= 1 && Sorted(s)
    ensures SumNat(Tally(s, RightEdges(s[0], BinWidth(s[0], s[|s| - 1], n), n))) == |s|
  {
    var r := RightEdges(s[0], BinWidth(s[0], s[|s| - 1], n), n);
    LastRightEdge(s[0], s[|s| - 1], n);
    forall i | 0 <= i < |s|
      ensures BinIndex(s[i], r) < |r|
    {
      assert s[i] <= s[|s| - 1];
    }
    TallySum(s, r);
  }

  // ---------------------------------------------------------------------------
  // Properties of the density
  // ---------------------------------------------------------------------------

  lemma {:induction false} MassOfDensity(c: seq<nat>, l: seq<real>, r: seq<real>, t: nat)
    requires |l| == |c| && |r| == |c|
    requires forall j :: 0 <= j < |c| ==> r[j] - l[j] != 0.0
    requires t != 0
    ensures Mass(Density(c, l, r, t), l, r) == (SumNat(c) as real) / (t as real)
  {
    if |c| > 0 {
      var k := |c| - 1;
      var h := Density(c, l, r, t);
      DensityPrefix(c, l, r, t, k);
      MassOfDensity(c[..k], l[..k], r[..k], t);
      CancelWidth(c[k] as real, r[k] - l[k], t as real);
      var before := (SumNat(c[..k]) as real) / (t as real);
      var last := (c[k] as real) / (t as real);
      assert Mass(h, l, r) == before + last;
      assert SumNat(c) as real == SumNat(c[..k]) as real + c[k] as real;
      AddQuotients(SumNat(c[..k]) as real, c[k] as real, t as real);
    }
  }

  /** The heights of the first k bins depend only on those bins. */
  lemma DensityPrefix(c: seq<nat>, l: seq<real>, r: seq<real>, t: nat, k: nat)
    requires |l| == |c| && |r| == |c| && k <= |c|
    requires forall j :: 0 <= j < |c| ==> r[j] - l[j] != 0.0
    requires t != 0
    ensures Density(c, l, r, t)[..k] == Density(c[..k], l[..k], r[..k], t)
  {
  }

  /** Shares of one total add up. */
  lemma AddQuotients(a: real, b: real, t: real)
    requires t != 0.0
    ensures a / t + b / t == (a + b) / t
  {
  }

  /** A bar's height times its width gives back its share of the count. */
  lemma CancelWidth(a: real, d: real, t: real)
    requires d != 0.0 && t != 0.0
    ensures a / d / t * d == a / t
  {
    calc {
      a / d / t * d;
      == (a / d) * d / t;
      == a / t;
    }
  }

  /** The density heights are non-negative where the bins have positive width,
      and the area under them is exactly 1. */
  lemma DensityIsNormalised(c: seq<nat>, l: seq<real>, r: seq<real>)
    requires |l| == |c| && |r| == |c|
    requires forall j :: 0 <= j < |c| ==> r[j] - l[j] > 0.0
    requires SumNat(c) != 0
    ensures var h := Density(c, l, r, SumNat(c));
            && (forall j :: 0 <= j < |h| ==> h[j] >= 0.0)
            && Mass(h, l, r) == 1.0
  {
    var t := SumNat(c);
    DensityIsNonNegative(c, l, r, t);
    MassOfDensity(c, l, r, t);
    SelfQuotient(t as real);
  }

  lemma DensityIsNonNegative(c: seq<nat>, l: seq<real>, r: seq<real>, t: nat)
    requires |l| == |c| && |r| == |c|
    requires forall j :: 0 <= j < |c| ==> r[j] - l[j] > 0.0
    requires t != 0
    ensures forall j :: 0 <= j < |c| ==> Density(c, l, r, t)[j] >= 0.0
  {
    forall j | 0 <= j < |c|
      ensures Density(c, l, r, t)[j] >= 0.0
    {
      assert (c[j] as real) / (r[j] - l[j]) >= 0.0;
    }
  }

  /** A non-zero total divided by itself is 1. Kept apart from the density
      lemmas, where this division fact is costly to find. */
  lemma SelfQuotient(x: real)
    requires x != 0.0
    ensures x / x == 1.0
  {
  }

  // ---------------------------------------------------------------------------
  // The whole callback
  // ---------------------------------------------------------------------------

  /** For sorted samples that are not all equal, the callback yields n contiguous
      bins from min to max whose heights are count / width / |s|, non-negative,
      with total area 1. */
  lemma RebinnedIsDensityHistogram(s: seq<real>, n: nat)
    requires |s| >= 1 && n >= 1 && Sorted(s) && s[0] < s[|s| - 1]
    ensures Rebinned(s, n).Success?
    ensures var res := Rebinned(s, n).value;
            var w := BinWidth(s[0], s[|s| - 1], n);
            var c := Tally(s, res.rEdges);
            && |res.hist| == n && |res.lEdges| == n && |res.rEdges| == n
            && res.lEdges[0] == s[0] && res.rEdges[n - 1] == s[|s| - 1]
            && (forall j :: 0 <= j < n - 1 ==> res.rEdges[j] == res.lEdges[j + 1])
            && SumNat(c) == |s|
            && (forall j :: 0 <= j < n ==> res.hist[j] == (c[j] as real) / w / (|s| as real))
            && (forall j :: 0 <= j < n ==> res.hist[j] >= 0.0)
            && Mass(res.hist, res.lEdges, res.rEdges) == 1.0
  {
    RebinnedEdges(s, n);
    RebinnedDensity(s, n);
  }

  /** The bins of a non-degenerate rebinning run contiguously from min to max. */
  lemma RebinnedEdges(s: seq<real>, n: nat)
    requires |s| >= 1 && n >= 1 && Sorted(s) && s[0] < s[|s| - 1]
    ensures Rebinned(s, n).Success?
    ensures var res := Rebinned(s, n).value;
            && res.lEdges[0] == s[0] && res.rEdges[n - 1] == s[|s| - 1]
            && (forall j :: 0 <= j < n - 1 ==> res.rEdges[j] == res.lEdges[j + 1])
  {
    var w := BinWidth(s[0], s[|s| - 1], n);
    EdgesPartitionRange(s, n);
    assert Rebinned(s, n).value.lEdges == LeftEdges(s[0], w, n);
    assert Rebinned(s, n).value.rEdges == RightEdges(s[0], w, n);
  }

  /** The heights of a non-degenerate rebinning are the counts over width and
      sample count, non-negative, with area 1. */
  lemma RebinnedDensity(s: seq<real>, n: nat)
    requires |s| >= 1 && n >= 1 && Sorted(s) && s[0] < s[|s| - 1]
    ensures Rebinned(s, n).Success?
    ensures var res := Rebinned(s, n).value;
            var w := BinWidth(s[0], s[|s| - 1], n);
            var c := Tally(s, res.rEdges);
            && SumNat(c) == |s|
            && (forall j :: 0 <= j < n ==> res.hist[j] == (c[j] as real) / w / (|s| as real))
            && (forall j :: 0 <= j < n ==> res.hist[j] >= 0.0)
            && Mass(res.hist, res.lEdges, res.rEdges) == 1.0
  {
    var w := BinWidth(s[0], s[|s| - 1], n);
    var l := LeftEdges(s[0], w, n);
    var r := RightEdges(s[0], w, n);
    var c := Tally(s, r);
    SortedSamplesAllCounted(s, n);
    DensityIsNormalised(c, l, r);
    DensityHeights(c, l, r, w, SumNat(c));
    assert Rebinned(s, n) == Success(Hist(Density(c, l, r, SumNat(c)), l, r));
  }

  /** With bins of common width w, the height of bin j is count / w / total. */
  lemma DensityHeights(c: seq<nat>, l: seq<real>, r: seq<real>, w: real, t: nat)
    requires |l| == |c| && |r| == |c|
    requires w != 0.0 && forall j :: 0 <= j < |c| ==> r[j] - l[j] == w
    requires t != 0
    ensures forall j :: 0 <= j < |c| ==> Density(c, l, r, t)[j] == (c[j] as real) / w / (t as real)
  {
  }

  /** When all samples are equal every bin has width 0: all samples fall into
      bin 0, and the density step has nothing to divide by. */
  lemma DegenerateRange(s: seq<real>, n: nat)
    requires |s| >= 1 && n >= 1 && Sorted(s) && s[0] == s[|s| - 1]
    ensures Rebinned(s, n) == Failure(ZeroWidthBins)
    ensures var r := RightEdges(s[0], BinWidth(s[0], s[|s| - 1], n), n);
            && Tally(s, r)[0] == |s|
            && (forall j :: 1 <= j < n ==> Tally(s, r)[j] == 0)
  {
    var r := RightEdges(s[0], BinWidth(s[0], s[|s| - 1], n), n);
    forall i | 0 <= i < |s|
      ensures BinIndex(s[i], r) == 0
    {
      assert s[0] <= s[i] <= s[|s| - 1];
    }
    assert BinIndices(s, r) == seq(|s|, _ => 0);
    ZerosMultiset(|s|);
    TallyCountsBinMembers(s, r, 0);
    forall j | 1 <= j < n
      ensures Tally(s, r)[j] == 0
    {
      TallyCountsBinMembers(s, r, j);
    }
  }

  lemma {:induction false} ZerosMultiset(m: nat)
    ensures multiset(seq(m, _ => 0))[0] == m
  {
    if m > 0 {
      assert seq(m, _ => 0) == seq(m - 1, _ => 0) + [0];
      ZerosMultiset(m - 1);
    }

  }

  // ---------------------------------------------------------------------------
  // The callback, imperatively
  // ---------------------------------------------------------------------------

  /** `x.sort((a, b) => a - b)`: sorts the samples ascending, in place. */
  method SortSamples(a: array<real>)
    modifies a
    ensures Sorted(a[..])
    ensures multiset(a[..]) == old(multiset(a[..]))
  {
    var i := 0;
    while i < a.Length
      invariant 0 <= i <= a.Length
      invariant forall p, q :: 0 <= p < q < i ==> a[p] <= a[q]
      invariant multiset(a[..]) == old(multiset(a[..]))
    {
      var j := i;
      while j > 0 && a[j - 1] > a[j]
        invariant 0 <= j <= i
        invariant forall p, q :: 0 <= p < q <= i && p != j && q != j ==> a[p] <= a[q]
        invariant forall q :: j < q <= i ==> a[j] <= a[q]
        invariant multiset(a[..]) == old(multiset(a[..]))
      {
        a[j - 1], a[j] := a[j], a[j - 1];
        j := j - 1;
      }
      i := i + 1;
    }
  }

  /** The nested counting loops: the outer loop hands each sample in turn to the
      inner loop, `CountSample`. */
  method CountSamples(x: array<real>, r: seq<real>) returns (counts: seq<nat>)
    ensures counts == Tally(x[..], r)
  {
    var hist := new nat[|r|](_ => 0);
    for i := 0 to x.Length
      invariant hist[..] == Tally(x[..i], r)
    {
      assert x[..i + 1][..i] == x[..i];
      CountSample(hist, x[i], r);
    }
    assert x[..x.Length] == x[..];
    counts := hist[..];
  }

  /** The inner loop: increment the first counter whose right edge is >= v,
      then break out (here: return). */
  method CountSample(hist: array<nat>, v: real, r: seq<real>)
    requires hist.Length == |r|
    modifies hist
    ensures hist[..] == Bump(old(hist[..]), BinIndex(v, r))
  {
    for j := 0 to |r|
      invariant forall k :: 0 <= k < j ==> r[k] < v
      invariant hist[..] == old(hist[..])
    {
      if v <= r[j] {
        hist[j] := hist[j] + 1;
        return;
      }
    }
  }



  /** The slider callback: sort the samples in place, build the edges, count,
      and normalise to a density. */
  method Rebin(x: array<real>, nBins: nat) returns (res: Result<Hist, RebinError>)
    requires nBins >= 1
    modifies x
    ensures Sorted(x[..])
    ensures multiset(x[..]) == old(multiset(x[..]))
    ensures res == Rebinned(x[..], nBins)
  {
    SortSamples(x);
    if x.Length == 0 {
      return Failure(EmptySamples);
    }
    var binSize := (x[x.Length - 1] - x[0]) / (nBins as real);
    var lEdges := LeftEdges(x[0], binSize, nBins);
    var rEdges := RightEdges(x[0], binSize, nBins);
    var hist := CountSamples(x, rEdges);
    var sum := SumNat(hist);
    ghost var s := x[..];
    assert s[0] == x[0] && s[|s| - 1] == x[x.Length - 1];
    if binSize == 0.0 {
      return Failure(ZeroWidthBins);
    }
    LastSampleCounted(s, nBins);
    res := Success(Hist(Density(hist, lEdges, rEdges, sum), lEdges, rEdges));
  }
}

=== FILE: kernel_expr.dfy ===
/**
 * The kernel-expression evaluator of `smooth_expression`: a post-order fold over
 * a parsed expression tree whose names are looked up in a table of kernel
 * parameter sets. Looking a name up pops the `type` entry of the parameter set
 * it uses, in place, so the tables are threaded through the evaluation.
 * Kernels are uninterpreted values: a constructor name with its arguments, and
 * the terms the operators build from them.
 */
module KernelExpr {
  import opened Wrappers

  /** Binary operator node kinds of the parsed expression. */
  datatype BinOperator =
    | Add | Sub | Mult | MatMult | Div | Mod | Pow
    | LShift | RShift | BitOr | BitXor | BitAnd | FloorDiv

  /** Unary operator node kinds of the parsed expression. */
  datatype UnaryOperator = Invert | Not | UAdd | USub

  /** The parsed expression; `Other` stands for every remaining node kind
      (calls, comparisons, string constants, ...). */
  datatype Expr =
    | Num(n: real)
    | Name(id: string)
    | BinOp(left: Expr, op: BinOperator, right: Expr)
    | UnaryOp(uop: UnaryOperator, operand: Expr)
    | Other(kind: string)

  /** A value in a kernel parameter set. */
  datatype Param = Text(s: string) | Number(x: real)

  type ParamSet = map<string, Param>

  /** `kernel_params` (identifier to parameter set) and `kernel_default_params`. */
  datatype Tables = Tables(params: map<string, ParamSet>, defaults: ParamSet)

  /** What evaluation produces: a number, a kernel built by a constructor of the
      registry, or an operator applied to two values. */
  datatype Value =
    | Scalar(x: real)
    | Kernel(ctor: string, args: ParamSet)
    | Applied(op: BinOperator, left: Value, right: Value)

  datatype EvalError =
    | UnknownKernelName(id: string, expr: string)  // ValueError: name not in kernel_params
    | UnknownKernelType(ty: Param)                 // KeyError in the constructor registry
    | UnsupportedBinOp(op: BinOperator)            // KeyError in the operator table
    | UnsupportedUnaryOp(uop: UnaryOperator)       // KeyError in the operator table
    | UnsupportedNode(kind: string)                // TypeError
    | NotOneKernelName(count: nat)                 // AssertionError: no expression, not one name

  /** The operator table: `+`, `*` and `**`, and no unary operator. */
  const Operators: set<BinOperator> := {Add, Mult, Pow}

  /** The constructor registry: kernel type name to kernel class. */
  const Kernels: map<string, string> :=
    map["const" := "ConstantKernel", "white" := "WhiteKernel", "rbf" := "RBF",
        "mat" := "Matern", "rq" := "RationalQuadratic", "esn" := "ExpSineSquared",
        "dp" := "DotProduct", "pw" := "PairwiseKernel"]

  /** The outcome of an evaluation and the tables as they are afterwards. */
  datatype Step = Step(result: Result<Value, EvalError>, tables: Tables)

  // ---------------------------------------------------------------------------
  // Vocabulary
  // ---------------------------------------------------------------------------

  /** The identifiers that occur in e. */
  function Names(e: Expr): set<string> {
    match e
    case Num(_) => {}
    case Name(id) => {id}
    case BinOp(l, _, r) => Names(l) + Names(r)
    case UnaryOp(_, x) => Names(x)
    case Other(_) => {}
  }

  /** The binary operators that occur in e. */
  function BinOps(e: Expr): set<BinOperator> {
    match e
    case Num(_) => {}
    case Name(_) => {}
    case BinOp(l, op, r) => {op} + BinOps(l) + BinOps(r)
    case UnaryOp(_, x) => BinOps(x)
    case Other(_) => {}
  }

  /** The unary operators that occur in e. */
  function UnaryOps(e: Expr): set<UnaryOperator> {
    match e
    case Num(_) => {}
    case Name(_) => {}
    case BinOp(l, _, r) => UnaryOps(l) + UnaryOps(r)
    case UnaryOp(u, x) => {u} + UnaryOps(x)
    case Other(_) => {}
  }

  /** The unsupported node kinds that occur in e. */
  function OtherKinds(e: Expr): set<string> {
    match e
    case Num(_) => {}
    case Name(_) => {}
    case BinOp(l, _, r) => OtherKinds(l) + OtherKinds(r)
    case UnaryOp(_, x) => OtherKinds(x)
    case Other(k) => {k}
  }

  /** e uses only numbers, names and the operators of the table. */
  predicate Supported(e: Expr) {
    match e
    case Num(_) => true
    case Name(_) => true
    case BinOp(l, op, r) => op in Operators && Supported(l) && Supported(r)
    case UnaryOp(_, _) => false
    case Other(_) => false
  }

  /** A parameter set whose `type` entry, if any, names a registered kernel. */
  predicate TypeKnown(ps: ParamSet) {
    "type" in ps ==> ps["type"].Text? && ps["type"].s in Kernels
  }

  predicate TypesKnown(t: Tables) {
    TypeKnown(t.defaults) && forall id :: id in t.params ==> TypeKnown(t.params[id])
  }

  /** ps' is ps, or ps with its `type` entry popped. */
  predicate PoppedOrSame(ps: ParamSet, ps': ParamSet) {
    ps' == ps || ps' == ps - {"type"}
  }

  /** t' differs from t at most by `type` entries popped from parameter sets. */
  predicate Consumed(t: Tables, t': Tables) {
    && t'.params.Keys == t.params.Keys
    && PoppedOrSame(t.defaults, t'.defaults)
    && forall id :: id in t.params ==> PoppedOrSame(t.params[id], t'.params[id])
  }

  lemma ConsumedTransitive(t0: Tables, t1: Tables, t2: Tables)
    requires Consumed(t0, t1) && Consumed(t1, t2)
    ensures Consumed(t0, t2)
  {
    assert t0.defaults - {"type"} - {"type"} == t0.defaults - {"type"};
    forall id | id in t0.params
      ensures PoppedOrSame(t0.params[id], t2.params[id])
    {
      assert t0.params[id] - {"type"} - {"type"} == t0.params[id] - {"type"};
    }
  }

  /** The parameter sets of the identifiers outside names are as they were in t. */
  predicate Untouched(t: Tables, t': Tables, names: set<string>) {
    forall id :: id in t.params && id !in names ==> id in t'.params && t'.params[id] == t.params[id]
  }

  /** Every parameter set of an identifier in names has lost its `type` entry. */
  predicate PoppedAll(t: Tables, t': Tables, names: set<string>) {
    forall id :: id in t.params && id in names ==> id in t'.params && t'.params[id] == t.params[id] - {"type"}
  }

  /** Evaluating l and then r against the tables l left behind pops exactly
      what each pops on its own: popping twice is popping once. */
  lemma PopsCompose(t: Tables, a: Tables, b: Tables, nl: set<string>, nr: set<string>)
    requires Untouched(t, a, nl) && PoppedAll(t, a, nl)
    requires Untouched(a, b, nr) && PoppedAll(a, b, nr)
    requires a.params.Keys == t.params.Keys
    ensures Untouched(t, b, nl + nr) && PoppedAll(t, b, nl + nr)
  {
    forall id | id in t.params && id in nl + nr
      ensures id in b.params && b.params[id] == t.params[id] - {"type"}
    {
      if id in nl && id in nr {
        assert t.params[id] - {"type"} - {"type"} == t.params[id] - {"type"};
      }
    }
  }

  /** e and v have the same shape: numbers became scalars, names kernels, and
      each operator node the application of its operator to its children's values. */
  predicate Mirrors(e: Expr, v: Value) {
    match e
    case Num(n) => v == Scalar(n)
    case Name(_) => v.Kernel?
    case BinOp(l, op, r) => v.Applied? && v.op == op && Mirrors(l, v.left) && Mirrors(r, v.right)
    case UnaryOp(_, _) => false
    case Other(_) => false
  }

  /** id is a name of e that resolves (it is in kernel_params, or missing names
      are suppressed) to a parameter set selecting kernel type ty. */
  predicate Selects(ty: Param, id: string, e: Expr, t: Tables, suppress: bool) {
    id in Names(e) && (suppress || id in t.params) && KernelType(ParamsFor(id, t)) == ty
  }

  /** What an error says about the expression it came from. */
  ghost predicate Explains(err: EvalError, e: Expr, t: Tables, suppress: bool, expr: string) {
    match err
    case UnknownKernelName(id, x) => !suppress && id in Names(e) && id !in t.params && x == expr
    case UnknownKernelType(ty) =>
      && !(ty.Text? && ty.s in Kernels)
      && exists id :: Selects(ty, id, e, t, suppress)
    case UnsupportedBinOp(op) => op in BinOps(e) && op !in Operators
    case UnsupportedUnaryOp(u) => u in UnaryOps(e)
    case UnsupportedNode(k) => k in OtherKinds(e)
    case NotOneKernelName(_) => false
  }

  // ---------------------------------------------------------------------------
  // The evaluator
  // ---------------------------------------------------------------------------

  /** `kernel_params.get(node.id, kernel_default_params)`: the parameter set a
      name resolves to, its own when it has one and the defaults otherwise. */
  function ParamsFor(id: string, t: Tables): (ps: ParamSet)
    ensures id in t.params ==> ps == t.params[id]
    ensures id !in t.params ==> ps == t.defaults
  {
    if id in t.params then t.params[id] else t.defaults
  }

  /** `params.pop('type', 'rbf')`: the kernel type a parameter set selects. */
  function KernelType(ps: ParamSet): (ty: Param)
    ensures "type" in ps ==> ty == ps["type"]
    ensures "type" !in ps ==> ty == Text("rbf")
  {
    if "type" in ps then ps["type"] else Text("rbf")
  }

  /** Evaluation of a name: reject it if unknown (unless suppressed), pop the
      `type` of its parameter set in place, and call the registered constructor
      with what is left. */
  function Lookup(id: string, t: Tables, suppress: bool, expr: string): (st: Step)
    ensures Consumed(t, st.tables)
  {
    if !suppress && id !in t.params then
      Step(Failure(UnknownKernelName(id, expr)), t)
    else
      var ps := ParamsFor(id, t);
      var ty := KernelType(ps);
      var rest := ps - {"type"};
      var t' := if id in t.params then t.(params := t.params[id := rest]) else t.(defaults := rest);
      if ty.Text? && ty.s in Kernels then Step(Success(Kernel(Kernels[ty.s], rest)), t')
      else Step(Failure(UnknownKernelType(ty)), t')
  }

  /** `_eval`: the post-order fold. The operator is looked up before the operands
      are evaluated, and the left operand is evaluated before the right one. */
  function Eval(e: Expr, t: Tables, suppress: bool, expr: string): (st: Step)
    ensures Consumed(t, st.tables)
    ensures Untouched(t, st.tables, Names(e))
    ensures !suppress || Names(e) <= t.params.Keys ==> st.tables.defaults == t.defaults
    ensures st.result.Success? ==> Supported(e) && Mirrors(e, st.result.value)
    ensures st.result.Success? ==> suppress || Names(e) <= t.params.Keys
    ensures st.result.Success? ==> PoppedAll(t, st.tables, Names(e))
    ensures st.result.Success? && !(Names(e) <= t.params.Keys) ==> st.tables.defaults == t.defaults - {"type"}
    ensures st.result.Failure? ==> Explains(st.result.error, e, t, suppress, expr)
    ensures st.result.Failure? && st.result.error.UnknownKernelType? ==>
              exists id :: Selects(st.result.error.ty, id, e, t, suppress)
                           && ParamsFor(id, st.tables) == ParamsFor(id, t) - {"type"}
  {
    match e
    case Num(n) => Step(Success(Scalar(n)), t)
    case Name(id) =>
      var st := Lookup(id, t, suppress, expr);
      assert st.result.Failure? && st.result.error.UnknownKernelType? ==>
               Selects(st.result.error.ty, id, e, t, suppress)
               && ParamsFor(id, st.tables) == ParamsFor(id, t) - {"type"};
      st
    case BinOp(l, op, r) =>
      if op !in Operators then Step(Failure(UnsupportedBinOp(op)), t)
      else
        var a := Eval(l, t, suppress, expr);
        if a.result.Failure? then
          ConsumedReflexive(t);
          FailureCarries(a.result.error, l, e, t, t, a.tables, suppress, expr);
          a
        else
          var b := Eval(r, a.tables, suppress, expr);
          ConsumedTransitive(t, a.tables, b.tables);
          if b.result.Failure? then
            FailureCarries(b.result.error, r, e, t, a.tables, b.tables, suppress, expr);
            b
          else
            PopsCompose(t, a.tables, b.tables, Names(l), Names(r));
            assert t.defaults - {"type"} - {"type"} == t.defaults - {"type"};
            Step(Success(Applied(op, a.result.value, b.result.value)), b.tables)
    case UnaryOp(u, _) => Step(Failure(UnsupportedUnaryOp(u)), t)
    case Other(kind) => Step(Failure(UnsupportedNode(kind)), t)
  }

  /** Nothing popped is still only popping. */
  lemma ConsumedReflexive(t: Tables)
    ensures Consumed(t, t)
  {
  }

  /** An error from a subexpression s of e, evaluated against tables a reached
      from t by popping, explains a failure of e against t. In particular a name
      of s that selects the unregistered type ty in a selects it in t too: a
      popped set has no `type`, so it selects "rbf", which is registered. If
      evaluating s then popped that set in b, it is t's set without `type`. */
  lemma FailureCarries(err: EvalError, s: Expr, e: Expr, t: Tables, a: Tables, b: Tables, suppress: bool, expr: string)
    requires Consumed(t, a)
    requires Names(s) <= Names(e) && BinOps(s) <= BinOps(e)
    requires UnaryOps(s) <= UnaryOps(e) && OtherKinds(s) <= OtherKinds(e)
    requires Explains(err, s, a, suppress, expr)
    requires err.UnknownKernelType? ==>
               exists id :: Selects(err.ty, id, s, a, suppress) && ParamsFor(id, b) == ParamsFor(id, a) - {"type"}
    ensures Explains(err, e, t, suppress, expr)
    ensures err.UnknownKernelType? ==>
              exists id :: Selects(err.ty, id, e, t, suppress) && ParamsFor(id, b) == ParamsFor(id, t) - {"type"}
  {
    if err.UnknownKernelType? {
      var id :| Selects(err.ty, id, s, a, suppress) && ParamsFor(id, b) == ParamsFor(id, a) - {"type"};
      SelectionCarries(err.ty, id, t, a);
      assert Selects(err.ty, id, e, t, suppress);
    }
  }

  /** A parameter set that still selects an unregistered type has not been popped. */
  lemma SelectionCarries(ty: Param, id: string, t: Tables, a: Tables)
    requires Consumed(t, a)
    requires !(ty.Text? && ty.s in Kernels) && KernelType(ParamsFor(id, a)) == ty
    ensures ParamsFor(id, a) == ParamsFor(id, t)
  {
    var ps, ps' := ParamsFor(id, t), ParamsFor(id, a);
    assert PoppedOrSame(ps, ps');
    assert "type" in ps';
    assert "type" !in ps - {"type"};
  }

  /** The expression to evaluate: the given one, or, when none is given and
      kernel_params has exactly one identifier, that identifier. */
  function ExpressionText(kernelExpr: Option<string>, t: Tables): (r: Result<string, EvalError>)
    ensures kernelExpr.Some? ==> r == Success(kernelExpr.value)
    ensures kernelExpr.None? ==> (r.Success? <==> |t.params| == 1)
    ensures kernelExpr.None? && r.Success? ==> t.params.Keys == {r.value}
    ensures r.Failure? ==> r.error == NotOneKernelName(|t.params|)
  {
    match kernelExpr
    case Some(x) => Success(x)
    case None =>
      if |t.params| != 1 then Failure(NotOneKernelName(|t.params|))
      else
        var id :| id in t.params;
        SingletonKeys(t.params.Keys, id);
        Success(id)
  }

  lemma SingletonKeys(keys: set<string>, id: string)
    requires |keys| == 1 && id in keys
    ensures keys == {id}
  {
    var rest := keys - {id};
    assert |rest| == 0;
  }

  // ---------------------------------------------------------------------------
  // Properties of the evaluator
  // ---------------------------------------------------------------------------

  lemma ConsumedKeepsTypesKnown(t: Tables, t': Tables)
    requires Consumed(t, t') && TypesKnown(t)
    ensures TypesKnown(t')
  {
    forall id | id in t'.params
      ensures TypeKnown(t'.params[id])
    {
      assert id in t.params;
    }
  }

  /** On an expression of numbers, names, `+`, `*` and `**`, and tables whose
      `type` entries are all registered, evaluation succeeds exactly when every
      name is in kernel_params or missing names are suppressed; otherwise it
      fails with the error naming an unknown identifier. */
  lemma {:induction false} EvalSucceedsIff(e: Expr, t: Tables, suppress: bool, expr: string)
    requires Supported(e) && TypesKnown(t)
    ensures var st := Eval(e, t, suppress, expr);
            && (st.result.Success? <==> suppress || Names(e) <= t.params.Keys)
            && (st.result.Failure? ==> st.result.error.UnknownKernelName?)
            && TypesKnown(st.tables)
  {
    var st := Eval(e, t, suppress, expr);
    ConsumedKeepsTypesKnown(t, st.tables);
    match e
    case Num(_) =>
    case Name(id) =>
    case BinOp(l, op, r) =>
      EvalSucceedsIff(l, t, suppress, expr);
      var a := Eval(l, t, suppress, expr);
      if a.result.Success? {
        EvalSucceedsIff(r, a.tables, suppress, expr);
      }
  }

  /** Evaluating a resolvable name builds the kernel its `type` selects (RBF when
      there is none) from the remaining entries, and leaves the parameter set it
      used without `type`; nothing else in the tables changes. */
  lemma NameLookup(id: string, t: Tables, suppress: bool, expr: string)
    requires suppress || id in t.params
    requires TypeKnown(ParamsFor(id, t))
    ensures var ps := ParamsFor(id, t);
            var st := Eval(Name(id), t, suppress, expr);
            && st.result == Success(Kernel(Kernels[KernelType(ps).s], ps - {"type"}))
            && ParamsFor(id, st.tables) == ps - {"type"}
            && st.tables.params.Keys == t.params.Keys
            && (forall other :: other in t.params && other != id ==> st.tables.params[other] == t.params[other])
            && (id in t.params ==> st.tables.defaults == t.defaults)
  {
  }

  /** A second evaluation of the same name sees no `type` any more: it builds an
      RBF kernel from the same remaining entries and changes nothing. */
  lemma SecondLookupBuildsRbf(id: string, t: Tables, suppress: bool, expr: string)
    requires suppress || id in t.params
    requires TypeKnown(ParamsFor(id, t))
    ensures var t1 := Eval(Name(id), t, suppress, expr).tables;
            var st := Eval(Name(id), t1, suppress, expr);
            && st.result == Success(Kernel("RBF", ParamsFor(id, t) - {"type"}))
            && st.tables == t1
  {
    NameLookup(id, t, suppress, expr);
    var t1 := Eval(Name(id), t, suppress, expr).tables;
    assert ParamsFor(id, t1) - {"type"} == ParamsFor(id, t1);
  }

  /** `k + k` where k selects a Matern kernel: the left k is a Matern kernel, the
      right one an RBF kernel, because the left lookup popped the `type`. */
  lemma RepeatedNameLosesType()
    ensures var t := Tables(map["k" := map["type" := Text("mat"), "length_scale" := Number(0.5)]], map[]);
            var e := BinOp(Name("k"), Add, Name("k"));
            Eval(e, t, false, "k + k").result
              == Success(Applied(Add, Kernel("Matern", map["length_scale" := Number(0.5)]),
                                      Kernel("RBF", map["length_scale" := Number(0.5)])))
  {
    var ps: ParamSet := map["type" := Text("mat"), "length_scale" := Number(0.5)];
    var t := Tables(map["k" := ps], map[]);
    assert ps - {"type"} == map["length_scale" := Number(0.5)];
    assert TypeKnown(ParamsFor("k", t));
    NameLookup("k", t, false, "k + k");
    SecondLookupBuildsRbf("k", t, false, "k + k");
  }

  // ---------------------------------------------------------------------------
  // Evaluation against a snapshot of the tables
  // ---------------------------------------------------------------------------

  /** v is what e denotes over t when every name builds the kernel its own
      parameter set selects: the registered constructor of its `type` (RBF
      when there is none), called with the other entries. */
  predicate Denotes(e: Expr, v: Value, t: Tables) {
    match e
    case Num(n) => v == Scalar(n)
    case Name(id) =>
      var ps := ParamsFor(id, t);
      var ty := KernelType(ps);
      ty.Text? && ty.s in Kernels && v == Kernel(Kernels[ty.s], ps - {"type"})
    case BinOp(l, op, r) => v.Applied? && v.op == op && Denotes(l, v.left, t) && Denotes(r, v.right, t)
    case UnaryOp(_, _) => false
    case Other(_) => false
  }

  /** Name lookup on a copy of the parameter set: the kernel its configured
      `type` selects, with the tables left alone. */
  function SnapshotLookup(id: string, t: Tables, suppress: bool, expr: string): (r: Result<Value, EvalError>)
    ensures r.Success? <==> (suppress || id in t.params) && TypeKnown(ParamsFor(id, t))
    ensures r.Success? ==> Denotes(Name(id), r.value, t)
    ensures !suppress && id !in t.params ==> r == Failure(UnknownKernelName(id, expr))
  {
    if !suppress && id !in t.params then
      Failure(UnknownKernelName(id, expr))
    else
      var ps := ParamsFor(id, t);
      var ty := KernelType(ps);
      if ty.Text? && ty.s in Kernels then Success(Kernel(Kernels[ty.s], ps - {"type"}))
      else Failure(UnknownKernelType(ty))
  }

  /** The evaluator with every lookup done on a copy: a pure fold in which each
      occurrence of a name denotes the kernel its parameter set selects. */
  function Snapshot(e: Expr, t: Tables, suppress: bool, expr: string): (r: Result<Value, EvalError>)
    ensures r.Success? ==> Supported(e) && Denotes(e, r.value, t)
    ensures r.Success? ==> suppress || Names(e) <= t.params.Keys
    ensures r.Failure? ==> Explains(r.error, e, t, suppress, expr)
  {
    match e
    case Num(n) => Success(Scalar(n))
    case Name(id) =>
      var r := SnapshotLookup(id, t, suppress, expr);
      assert r.Failure? && r.error.UnknownKernelType? ==> Selects(r.error.ty, id, e, t, suppress);
      r
    case BinOp(l, op, r) =>
      if op !in Operators then Failure(UnsupportedBinOp(op))
      else
        var a := Snapshot(l, t, suppress, expr);
        if a.Failure? then
          if a.error.UnknownKernelType? then SelectionWidens(a.error.ty, l, e, t, suppress); a
          else a
        else
          var b := Snapshot(r, t, suppress, expr);
          if b.Failure? then
            if b.error.UnknownKernelType? then SelectionWidens(b.error.ty, r, e, t, suppress); b
            else b
          else Success(Applied(op, a.value, b.value))
    case UnaryOp(u, _) => Failure(UnsupportedUnaryOp(u))
    case Other(kind) => Failure(UnsupportedNode(kind))
  }

  /** A name of a subexpression of e is a name of e. */
  lemma SelectionWidens(ty: Param, s: Expr, e: Expr, t: Tables, suppress: bool)
    requires Names(s) <= Names(e)
    requires exists id :: Selects(ty, id, s, t, suppress)
    ensures exists id :: Selects(ty, id, e, t, suppress)
  {
    var id :| Selects(ty, id, s, t, suppress);
    assert Selects(ty, id, e, t, suppress);
  }

  /** No identifier occurs twice in e. */
  predicate Linear(e: Expr) {
    match e
    case Num(_) => true
    case Name(_) => true
    case BinOp(l, _, r) => Linear(l) && Linear(r) && Names(l) !! Names(r)
    case UnaryOp(_, x) => Linear(x)
    case Other(_) => true
  }

  /** The snapshot evaluator reads only the parameter sets of e's names and the
      defaults. */
  lemma {:induction false} SnapshotFrame(e: Expr, t: Tables, t': Tables, suppress: bool, expr: string)
    requires t'.params.Keys == t.params.Keys && t'.defaults == t.defaults
    requires forall id :: id in Names(e) && id in t.params ==> t'.params[id] == t.params[id]
    ensures Snapshot(e, t', suppress, expr) == Snapshot(e, t, suppress, expr)
  {
    match e
    case Num(_) =>
    case Name(id) =>
    case BinOp(l, op, r) =>
      SnapshotFrame(l, t, t', suppress, expr);
      SnapshotFrame(r, t, t', suppress, expr);
    case UnaryOp(_, _) =>
    case Other(_) =>
  }

  /** Popping in place makes a difference only when a parameter set is consulted
      twice: when no name occurs twice, and the defaults are not shared by
      suppressed missing names, the in-place evaluator gives exactly the
      snapshot result, so every name builds the kernel its `type` selects. */
  lemma {:induction false} EvalMatchesSnapshot(e: Expr, t: Tables, suppress: bool, expr: string)
    requires Linear(e)
    requires !suppress || Names(e) <= t.params.Keys
    ensures Eval(e, t, suppress, expr).result == Snapshot(e, t, suppress, expr)
  {
    match e
    case Num(_) =>
    case Name(id) =>
    case BinOp(l, op, r) =>
      if op in Operators {
        EvalMatchesSnapshot(l, t, suppress, expr);
        var a := Eval(l, t, suppress, expr);
        if a.result.Success? {
          EvalMatchesSnapshot(r, a.tables, suppress, expr);
          SnapshotFrame(r, t, a.tables, suppress, expr);
        }
      }
    case UnaryOp(_, _) =>
    case Other(_) =>
  }

  /** With snapshots, a repeated subexpression evaluates to the same value on
      both sides of an operator. */
  lemma SnapshotRepeatedOperand(e: Expr, op: BinOperator, t: Tables, suppress: bool, expr: string)
    requires op in Operators
    requires Snapshot(e, t, suppress, expr).Success?
    ensures var v := Snapshot(e, t, suppress, expr).value;
            Snapshot(BinOp(e, op, e), t, suppress, expr) == Success(Applied(op, v, v))
  {
  }

  /** `k + k` where k selects a Matern kernel evaluates, with snapshots, to the
      sum of two Matern kernels. */
  lemma RepeatedNameKeepsType()
    ensures var t := Tables(map["k" := map["type" := Text("mat"), "length_scale" := Number(0.5)]], map[]);
            var e := BinOp(Name("k"), Add, Name("k"));
            var matern := Kernel("Matern", map["length_scale" := Number(0.5)]);
            Snapshot(e, t, false, "k + k") == Success(Applied(Add, matern, matern))
  {
    var ps: ParamSet := map["type" := Text("mat"), "length_scale" := Number(0.5)];
    var t := Tables(map["k" := ps], map[]);
    assert ps - {"type"} == map["length_scale" := Number(0.5)];
    assert SnapshotLookup("k", t, false, "k + k") == Success(Kernel("Matern", map["length_scale" := Number(0.5)]));
  }
}

=== FILE: key_list.dfy ===
/**
 * The comma-separated key lists accepted by `highlight_de` for `de_values` and
 * `cell_values`: split on ',', strip each piece, drop repeated pieces keeping
 * the first occurrence, read a lone empty piece as the empty list, and check
 * that every remaining piece is a known key.
 */
module KeyList {
  import opened Wrappers

  // ---------------------------------------------------------------------------
  // Splitting on ','
  // ---------------------------------------------------------------------------

  /** `s.split(',')`: the pieces between commas; there is always at least one. */
  function Split(s: string): (parts: seq<string>)
    ensures |parts| >= 1
    ensures forall i :: 0 <= i < |parts| ==> ',' !in parts[i]
  {
    if |s| == 0 then [""]
    else
      var rest := Split(s[1..]);
      if s[0] == ',' then [""] + rest
      else [[s[0]] + rest[0]] + rest[1..]
  }

  /** `','.join(parts)`. */
  function Join(parts: seq<string>): string
    requires |parts| >= 1
    decreases |parts|
  {
    if |parts| == 1 then parts[0] else parts[0] + "," + Join(parts[1..])
  }

  /** Joining the pieces with ',' gives back the string. */
  lemma {:induction false} JoinSplit(s: string)
    ensures Join(Split(s)) == s
  {
    if |s| > 0 {
      var rest := Split(s[1..]);
      JoinSplit(s[1..]);
      if s[0] != ',' && |rest| > 1 {
        assert Split(s)[1..] == rest[1..];
      }
    }
  }

  lemma {:induction false} SplitPrefix(p: string, tail: string)
    requires ',' !in p
    ensures Split(p + tail) == [p + Split(tail)[0]] + Split(tail)[1..]
  {
    if |p| > 0 {
      var t := Split(tail);
      assert (p + tail)[0] == p[0] && (p + tail)[1..] == p[1..] + tail;
      SplitPrefix(p[1..], tail);
      var rest := Split(p[1..] + tail);
      assert rest[0] == p[1..] + t[0] && rest[1..] == t[1..];
      assert [p[0]] + (p[1..] + t[0]) == p + t[0];
    } else {
      var t := Split(tail);
      assert p + tail == tail && p + t[0] == t[0] && [t[0]] + t[1..] == t;
    }
  }

  /** Splitting comma-free pieces joined with ',' gives back the pieces. */
  lemma {:induction false} SplitJoin(parts: seq<string>)
    requires |parts| >= 1
    requires forall i :: 0 <= i < |parts| ==> ',' !in parts[i]
    ensures Split(Join(parts)) == parts
  {
    if |parts| == 1 {
      SplitPrefix(parts[0], "");
      assert parts[0] + "" == parts[0];
    } else {
      var j := Join(parts[1..]);
      SplitJoin(parts[1..]);
      assert parts[0] + "," + j == parts[0] + ("," + j);
      SplitPrefix(parts[0], "," + j);
      assert ("," + j)[1..] == j;
      assert parts[0] + "" == parts[0];
    }
  }

  // ---------------------------------------------------------------------------
  // Stripping white space
  // ---------------------------------------------------------------------------

  /** The characters `str.strip()` removes: those for which `str.isspace()` holds. */
  predicate IsSpace(c: char)
    ensures IsSpace(c) ==> c != ','
    ensures c == ' ' || c == '\t' || c == '\n' || c == '\r' ==> IsSpace(c)
  {
    || '\U{0009}' <= c <= '\U{000D}'
    || '\U{001C}' <= c <= '\U{0020}'
    || c == '\U{0085}' || c == '\U{00A0}' || c == '\U{1680}'
    || '\U{2000}' <= c <= '\U{200A}'
    || c == '\U{2028}' || c == '\U{2029}' || c == '\U{202F}' || c == '\U{205F}' || c == '\U{3000}'
  }

  /** s[lo..hi] is white space. */
  predicate SpaceBetween(s: string, lo: int, hi: int) {
    forall i {:trigger IsSpace(s[i])} :: 0 <= lo <= i < hi <= |s| ==> IsSpace(s[i])
  }

  predicate AllSpace(s: string) {
    SpaceBetween(s, 0, |s|)
  }

  /** s without its leading white space. */
  function StripLeft(s: string): (r: string)
    ensures |r| <= |s| && r == s[|s| - |r|..]
    ensures SpaceBetween(s, 0, |s| - |r|)
    ensures r == [] || !IsSpace(r[0])
  {
    if |s| > 0 && IsSpace(s[0]) then
      var t := s[1..];
      var r := StripLeft(t);
      assert s[|s| - |r|..] == t[|t| - |r|..];
      assert SpaceBetween(s, 0, |s| - |r|) by {
        forall i | 0 <= i < |s| - |r|
          ensures IsSpace(s[i])
        {
          if i > 0 { assert s[i] == t[i - 1]; }
        }
      }
      r
    else s
  }

  /** s without its trailing white space. */
  function StripRight(s: string): (r: string)
    ensures |r| <= |s| && r == s[..|r|]
    ensures SpaceBetween(s, |r|, |s|)
    ensures r == [] || !IsSpace(r[|r| - 1])
  {
    if |s| > 0 && IsSpace(s[|s| - 1]) then
      var t := s[..|s| - 1];
      var r := StripRight(t);
      assert s[..|r|] == t[..|r|];
      assert SpaceBetween(s, |r|, |s|) by {
        forall i | |r| <= i < |s|
          ensures IsSpace(s[i])
        {
          if i < |s| - 1 { assert s[i] == t[i]; }
        }
      }
      r
    else s
  }

  /** `str.strip()`: s without leading and trailing white space. What it keeps
      is no longer than s and neither starts nor ends with white space. */
  function Strip(s: string): (r: string)
    ensures |r| <= |s|
    ensures r == [] || (!IsSpace(r[0]) && !IsSpace(r[|r| - 1]))
  {
    var l := StripLeft(s);
    var r := StripRight(l);
    assert r != [] ==> r[0] == l[0];
    r
  }

  /** Strip keeps a contiguous stretch of s: the part after the leading white
      space. */
  lemma StripIsInfix(s: string)
    ensures var r := Strip(s);
            var i := |s| - |StripLeft(s)|;
            i + |r| <= |s| && r == s[i..i + |r|]
  {
    var l := StripLeft(s);
    var i := |s| - |l|;
    var r := StripRight(l);
    SliceOfSuffix(s, i, |r|);
  }

  /** The first n characters of the suffix from i are s[i..i + n]. */
  lemma SliceOfSuffix(s: string, i: nat, n: nat)
    requires i + n <= |s|
    ensures s[i..][..n] == s[i..i + n]
  {
  }

  /** White space in a suffix of s is white space in s, shifted by where the
      suffix starts. */
  lemma SpaceBetweenShift(s: string, i: nat, lo: int, hi: int)
    requires i <= |s| && 0 <= lo && SpaceBetween(s[i..], lo, hi)
    ensures SpaceBetween(s, lo + i, hi + i)
  {
    forall k | 0 <= lo + i <= k < hi + i <= |s|
      ensures IsSpace(s[k])
    {
      assert s[k] == s[i..][k - i];
    }
  }

  /** What Strip removes, before and after what it keeps, is white space. */
  lemma StripRemovesOnlySpace(s: string)
    ensures var i := |s| - |StripLeft(s)|;
            SpaceBetween(s, 0, i) && SpaceBetween(s, i + |Strip(s)|, |s|)
  {
    var l := StripLeft(s);
    var i := |s| - |l|;
    assert l == s[i..];
    SpaceBetweenShift(s, i, |StripRight(l)|, |l|);
  }

  /** A piece strips to "" exactly when it is all white space. */
  lemma StripEmptyIff(s: string)
    ensures Strip(s) == "" <==> AllSpace(s)
  {
    var l := StripLeft(s);
    var i := |s| - |l|;
    assert forall k :: i <= k < |s| ==> s[k] == l[k - i];
    if AllSpace(s) && l != [] {
      assert false;
    }
  }

  // ---------------------------------------------------------------------------
  // Removing repeats
  // ---------------------------------------------------------------------------

  predicate Distinct(xs: seq<string>) {
    forall i, j :: 0 <= i < j < |xs| ==> xs[i] != xs[j]
  }

  /** The index of the first occurrence of x in xs. */
  function FirstIndex(xs: seq<string>, x: string): (k: nat)
    requires x in xs
    ensures k < |xs| && xs[k] == x
    ensures forall i :: 0 <= i < k ==> xs[i] != x
  {
    if xs[0] == x then 0 else 1 + FirstIndex(xs[1..], x)
  }

  /** `list(dict.fromkeys(xs))`: each element once, at its first occurrence. */
  function Dedup(xs: seq<string>): (r: seq<string>)
    ensures forall x :: x in r <==> x in xs
    ensures Distinct(r)
  {
    if |xs| == 0 then []
    else
      var d := Dedup(xs[..|xs| - 1]);
      var x := xs[|xs| - 1];
      if x in d then d else d + [x]
  }

  lemma FirstIndexOfPrefix(xs: seq<string>, x: string, n: nat)
    requires n <= |xs| && x in xs[..n]
    ensures FirstIndex(xs, x) == FirstIndex(xs[..n], x)
  {
    var k := FirstIndex(xs[..n], x);
    assert xs[k] == x;
    assert forall i :: 0 <= i < k ==> xs[i] != x by {
      assert forall i :: 0 <= i < k ==> xs[i] == xs[..n][i];
    }
    FirstIndexUnique(xs, x, k);
  }

  lemma FirstIndexUnique(xs: seq<string>, x: string, k: nat)
    requires k < |xs| && xs[k] == x
    requires forall i :: 0 <= i < k ==> xs[i] != x
    ensures FirstIndex(xs, x) == k
  {
    var f := FirstIndex(xs, x);
    assert !(f < k) && !(k < f);
  }

  /** The elements of r occur in xs, and in the order of their first occurrences there. */
  predicate InFirstOccurrenceOrder(r: seq<string>, xs: seq<string>) {
    && (forall x :: x in r ==> x in xs)
    && forall i, j :: 0 <= i < j < |r| ==> FirstIndex(xs, r[i]) < FirstIndex(xs, r[j])
  }

  /** Dedup keeps the elements in the order of their first occurrences. */
  lemma {:induction false} DedupKeepsFirstOccurrenceOrder(xs: seq<string>)
    ensures InFirstOccurrenceOrder(Dedup(xs), xs)
  {
    if |xs| > 0 {
      var init := xs[..|xs| - 1];
      var x := xs[|xs| - 1];
      var d := Dedup(init);
      DedupKeepsFirstOccurrenceOrder(init);
      forall k | 0 <= k < |d|
        ensures d[k] in init
        ensures FirstIndex(xs, d[k]) == FirstIndex(init, d[k]) < |xs| - 1
      {
        assert d[k] in d;
        FirstIndexOfPrefix(xs, d[k], |xs| - 1);
      }
      var r := Dedup(xs);
      forall i, j | 0 <= i < j < |r|
        ensures FirstIndex(xs, r[i]) < FirstIndex(xs, r[j])
      {
        assert r[i] == d[i];
        if j < |d| {
          assert r[j] == d[j];
          assert FirstIndex(init, d[i]) < FirstIndex(init, d[j]);
        } else {
          assert x !in init;
          assert r[j] == x;
          FirstIndexUnique(xs, x, |xs| - 1);
        }
      }
    }
  }

  // ---------------------------------------------------------------------------
  // The key list rule
  // ---------------------------------------------------------------------------

  /** The assertion that fails when a listed key is unknown. */
  datatype KeyListError = NotAllKeysPresent

  function StripAll(parts: seq<string>): seq<string> {
    seq(|parts|, i requires 0 <= i < |parts| => Strip(parts[i]))
  }

  /** The pieces between the commas, stripped. */
  function Pieces(text: string): (pieces: seq<string>)
    ensures |pieces| == |Split(text)|
  {
    StripAll(Split(text))
  }

  /** The pieces of the list, stripped and without repeats. */
  function Tokens(text: string): (tokens: seq<string>)
    ensures Distinct(tokens)
    ensures forall x :: x in tokens <==> x in Pieces(text)
  {
    Dedup(Pieces(text))
  }

  /** A string value of `de_values` or `cell_values`, checked against `keys`
      (the keys of the differential-expression result or of the observations). */
  function ParseKeyList(text: string, keys: set<string>): (res: Result<seq<string>, KeyListError>)
    ensures res.Success? ==> Distinct(res.value) && forall k :: k in res.value ==> k in keys
    ensures res.Success? && res.value != [] ==> res.value == Tokens(text)
    ensures res.Failure? ==> Tokens(text) != [""] && exists k :: k in Tokens(text) && k !in keys
  {
    var tokens := Tokens(text);
    if tokens == [""] then Success([])
    else if forall k :: k in tokens ==> k in keys then Success(tokens)
    else Failure(NotAllKeysPresent)
  }

  /** A value that is already a list is used as it is; a string is parsed. */
  datatype KeyListArg = Text(s: string) | Keys(ks: seq<string>)

  function ResolveKeyList(arg: KeyListArg, keys: set<string>): (res: Result<seq<string>, KeyListError>)
    ensures arg.Keys? ==> res == Success(arg.ks)
    ensures arg.Text? && res.Success? ==> Distinct(res.value) && forall k :: k in res.value ==> k in keys
    ensures arg.Text? && res.Failure? ==> exists k :: k in Tokens(arg.s) && k !in keys
  {
    match arg
    case Keys(ks) => Success(ks)
    case Text(s) => ParseKeyList(s, keys)
  }

  /** Every stripped piece is comma-free and neither starts nor ends with white space. */
  lemma PiecesAreClean(text: string)
    ensures forall p :: p in Pieces(text) ==>
              ',' !in p && (p == [] || (!IsSpace(p[0]) && !IsSpace(p[|p| - 1])))
  {
    var parts := Split(text);
    var pieces := Pieces(text);
    forall i | 0 <= i < |pieces|
      ensures ',' !in pieces[i]
      ensures pieces[i] == [] || (!IsSpace(pieces[i][0]) && !IsSpace(pieces[i][|pieces[i]| - 1]))
    {
      assert pieces[i] == Strip(parts[i]);
      StripKeepsCommaFree(parts[i]);
    }
  }

  lemma StripKeepsCommaFree(s: string)
    requires ',' !in s
    ensures ',' !in Strip(s)
  {
    var l := StripLeft(s);
    var i := |s| - |l|;
    forall k | 0 <= k < |l|
      ensures l[k] != ','
    {
      assert l[k] == s[i + k];
    }
    var r := StripRight(l);
    forall k | 0 <= k < |r|
      ensures r[k] != ','
    {
      assert r[k] == l[k];
    }
    assert Strip(s) == r;
  }


  /** Removing repeats from a non-empty list leaves the lone empty string exactly
      when every element is empty. */
  lemma DedupBlankIff(xs: seq<string>)
    requires |xs| >= 1
    ensures Dedup(xs) == [""] <==> forall p :: p in xs ==> p == ""
  {
    var r := Dedup(xs);
    assert xs[0] in xs && xs[0] in r;
    if forall p :: p in xs ==> p == "" {
      FirstTwo(r);
      if |r| > 1 {
        assert false;
      }
    }
  }

  lemma FirstTwo(r: seq<string>)
    ensures |r| >= 1 ==> r[0] in r
    ensures |r| > 1 ==> r[1] in r && (Distinct(r) ==> r[0] != r[1])
  {
  }

  /** The tokens are the lone empty token exactly when every piece is empty. */
  lemma TokensBlankIff(text: string)
    ensures Tokens(text) == [""] <==> forall p :: p in Pieces(text) ==> p == ""
  {
    DedupBlankIff(Pieces(text));
  }

  /** A parsed list holds distinct known keys, each a stripped, comma-free piece
      of the text; a non-empty one holds every stripped piece; and the parse fails
      exactly when the pieces are not all empty and one of them is not a key. */
  lemma ParseKeyListSound(text: string, keys: set<string>)
    ensures var res := ParseKeyList(text, keys);
            var pieces := Pieces(text);
            && (res.Success? ==>
                  && Distinct(res.value)
                  && (forall k :: k in res.value ==>
                        && k in keys && k in pieces && ',' !in k
                        && (k == [] || (!IsSpace(k[0]) && !IsSpace(k[|k| - 1])))))
            && (res.Success? && res.value != [] ==> forall p :: p in pieces ==> p in res.value)
            && (res.Failure? <==> (exists p :: p in pieces && p != "") && (exists p :: p in pieces && p !in keys))
  {
    PiecesAreClean(text);
    TokensBlankIff(text);
  }

  /** text holds nothing but commas and white space. */
  predicate Blank(text: string) {
    forall i :: 0 <= i < |text| ==> text[i] == ',' || IsSpace(text[i])
  }

  /** Every piece strips to "" exactly when the text is blank. */
  lemma PiecesBlankIff(text: string)
    ensures (forall p :: p in Pieces(text) ==> p == "") <==> Blank(text)
  {
    var parts := Split(text);
    var pieces := Pieces(text);
    SplitBlank(text);
    EveryPieceSpaceAt(parts);
    if forall p :: p in pieces ==> p == "" {
      forall k | 0 <= k < |parts|
        ensures AllSpace(parts[k])
      {
        assert pieces[k] == Strip(parts[k]) && pieces[k] in pieces;
        StripEmptyIff(parts[k]);
      }
    }
    if Blank(text) {
      forall p | p in pieces
        ensures p == ""
      {
        var k :| 0 <= k < |pieces| && pieces[k] == p;
        assert pieces[k] == Strip(parts[k]);
        StripEmptyIff(parts[k]);
      }
    }
  }

  /** The list comes out empty exactly when the text holds nothing but commas
      and white space. */
  lemma ParseKeyListEmptyIff(text: string, keys: set<string>)
    ensures ParseKeyList(text, keys) == Success([]) <==> Blank(text)
  {
    TokensBlankIff(text);
    PiecesBlankIff(text);
    var pieces := Pieces(text);
    assert pieces[0] in pieces;
    assert pieces[0] in Tokens(text);
  }

  lemma AllSpaceCons(c: char, t: string)
    ensures AllSpace([c] + t) <==> IsSpace(c) && AllSpace(t)
  {
    var ct := [c] + t;
    assert ct[0] == c;
    assert forall i :: 0 <= i < |t| ==> t[i] == ct[i + 1];
  }

  /** Every piece is white space. */
  predicate EveryPieceSpace(parts: seq<string>) {
    |parts| == 0 || (AllSpace(parts[0]) && EveryPieceSpace(parts[1..]))
  }

  lemma {:induction false} EveryPieceSpaceAt(parts: seq<string>)
    ensures EveryPieceSpace(parts) <==> forall k :: 0 <= k < |parts| ==> AllSpace(parts[k])
  {
    if |parts| > 0 {
      EveryPieceSpaceAt(parts[1..]);
      assert forall k :: 1 <= k < |parts| ==> parts[k] == parts[1..][k - 1];
    }
  }

  /** The text is made of commas and white space exactly when every piece
      between commas is white space. */
  lemma {:induction false} SplitBlank(s: string)
    ensures Blank(s) <==> EveryPieceSpace(Split(s))
  {
    if |s| > 0 {
      SplitBlank(s[1..]);
      var rest := Split(s[1..]);
      var parts := Split(s);
      assert Blank(s) <==> (s[0] == ',' || IsSpace(s[0])) && Blank(s[1..]) by {
        assert forall i :: 1 <= i < |s| ==> s[i] == s[1..][i - 1];
      }
      if s[0] != ',' {
        AllSpaceCons(s[0], rest[0]);
        assert parts[0] == [s[0]] + rest[0] && parts[1..] == rest[1..];
      } else {
        assert parts[0] == "" && parts[1..] == rest;
      }
    } else {
      assert Split(s)[1..] == [];
    }
  }
}

=== FILE: wrappers.dfy ===
/** Optional and result types shared by the modules of this model. */
module Wrappers {

  /** A value that may be absent (`None` in the source). */
  datatype Option<+T> = None | Some(value: T)

  /** Either a value or the error the source raises instead. */
  datatype Result<+T, +E> = Success(value: T) | Failure(error: E)
}
